=== FILE: README.md ===
# Business-registration wizard: a Dafny model

This project models the state logic of a three-step seller-registration wizard.
Step 1 collects a GST number and a registered/unregistered flag. Step 2 collects a PAN.
Step 3 collects the store name, product category and address. The model covers:

- `Wizard` (app/page.tsx): the step counter, the accumulated record `{gst, pan, business}`,
  the three submit handlers, the two Back callbacks, and which form is on screen.
- `GstForm` (app/components/GSTForm.tsx): the verbatim number field, the two radio setters
  and the unchecked submit.
- `PanForm` (app/components/PANForm.tsx): the per-keystroke normaliser (upper-case, then drop
  everything outside `[A-Z0-9]`), the validator `/^[A-Z]{5}[0-9]{4}[A-Z]{1}$/` as an anchored
  match of fixed-count character-class repeats, and the error-or-forward submit.
- `BusinessForm` (app/components/BusinessForm.tsx): the initial record, the state-selection
  effect that loads the city list and clears the city, `handleInputChange`,
  `handleCitySelect` with its `"other"` sentinel, the category setter and the submit.
- `IndiaData` (lib/india-data.ts): the constant state → city-list table and the `State` type.
- `Utils` (lib/utils.ts): `cn`, which keeps truthy arguments and joins them with a space.

Each React handler is a pure transition on an immutable record. Each form also has an
`Event` type for the user actions its render wires up, an `Apply` that runs the matching
handler, and a `Run` over a sequence of events. The GST and PAN forms render every action at
all times, so their `Apply` runs every event. `BusinessForm.Enabled` says which actions the
business form's current render offers: for example, the city select exists only once a state
is chosen, and it offers that state's cities plus `"other"`. `Wizard.Apply` runs a callback
only when its form is on screen. The invariants are proved over every event sequence.

The code has no GST length, format or normalisation check. The business step has no
validation and no error messages. There is no "complete" state: after the last submit the
step stays 3. The GST screen comes before the PAN screen. The model does the same.

## Model

| member | source | states |
|---|---|---|
| Wizard.Init | app/page.tsx:9-25 | The wizard starts at step 1. Both flags are true and every text is empty except country `"INDIA"`. Each sub-record equals what a fresh GST, PAN and business form would hold. |
| Wizard.GstSubmit | app/page.tsx:27-30 | A GST submit replaces only `gst` with the submitted data and moves to step 2. `pan` and `business` are unchanged. |
| Wizard.PanSubmit | app/page.tsx:32-35 | A PAN submit replaces only `pan` and moves to step 3. `gst` and `business` are unchanged. |
| Wizard.BusinessSubmit | app/page.tsx:37-40 | A business submit replaces only `business` and leaves the step where it was. |
| Wizard.Back | app/page.tsx:46-51 | Back sets the step to its target and leaves the record unchanged. |
| Wizard.Moves | app/page.tsx:44-53 | Back from step 2 shows step 1, and Back from step 3 shows step 2, with the record kept. From step 3 no callback goes beyond step 3. |
| Wizard.OneScreen | app/page.tsx:44-53 | Under every sequence of callbacks the step is 1, 2 or 3, and exactly one form is rendered. |
| Wizard.Rendered | app/page.tsx:44-53 | Step 1 renders exactly the GST form, step 2 exactly the PAN form, step 3 exactly the business form, and any other step renders nothing. |
| Wizard.Apply | app/page.tsx:27-53 | A callback of a form that is not on screen changes nothing. A callback of the form on screen always runs its handler, whatever its payload: a GST submit at step 1 stores its data and shows step 2, a PAN submit at step 2 stores its data and shows step 3, PAN Back shows step 1, a business submit at step 3 stores its data and stays at 3, business Back shows step 2. Only the GST form at step 1 can change `gst`, only the PAN form at step 2 `pan`, only the business form at step 3 `business`. |
| Wizard.BusinessStepHasValidPan | app/page.tsx:32-53 | If PAN callbacks carry only what the PAN form can forward, the business step is shown only once a pattern-valid PAN with flag true is recorded. |
| Wizard.PanFormFeedsWizard | app/page.tsx:32-35 | A payload the PAN form forwards keeps a trace within `BusinessStepHasValidPan`'s condition. From step 2 it shows the business step with that PAN recorded. |
| Wizard.GstFormFeedsWizard | app/page.tsx:27-30 | From step 1, the GST form's payload after any user actions shows step 2 with the last text typed and the last radio clicked recorded, and `pan` and `business` unchanged. |
| Wizard.UnregisteredThenBack | app/page.tsx:27-46 | An unregistered GST submit with an empty number reaches step 2 with that data recorded. Back then returns to step 1 and keeps it. |
| Wizard.StoresBusinessForm | app/components/BusinessForm.tsx:65-68 | The business form's record is handed over unchecked. Submitting at step 3 stores exactly the form's record, keeps step 3, and the stored country is `"INDIA"`. |
| GstForm.Init | app/components/GSTForm.tsx:10-11 | The local state starts with an empty number and `isRegistered` true. |
| GstForm.TypeNumber | app/components/GSTForm.tsx:35 | Typing stores the input as given and leaves the flag alone. |
| GstForm.PickRegistration | app/components/GSTForm.tsx:47-59 | The radios set the flag to true or false and leave the number alone. |
| GstForm.Submit | app/components/GSTForm.tsx:13-16 | Submit forwards exactly the number and the flag. |
| GstForm.SubmitForwardsLastInput | app/components/GSTForm.tsx:10-59 | After any user actions, the submitted number is the last text typed, without normalisation and not cleared by "unregistered". The flag is the last radio clicked. |
| GstForm.SubmitAcceptsAnyText | app/components/GSTForm.tsx:13-16 | Any text is forwarded, even together with "unregistered": there is no format check. |
| PanForm.Init | app/components/PANForm.tsx:15-17 | The local state starts with an empty number, `isRegistered` true and no error. |
| PanForm.Strip | app/components/PANForm.tsx:34 | Removing characters outside `[A-Z0-9]` leaves only characters of that class and never lengthens the text. |
| PanForm.TypeNumber | app/components/PANForm.tsx:33-36 | The stored number is the normalised input, holds only `A-Z0-9` and is no longer than the input. The flag and error are unchanged. |
| PanForm.NormalizeChar | app/components/PANForm.tsx:34 | On one character the normaliser upper-cases it, then keeps it when it is in `[A-Z0-9]` and removes it otherwise. With `NormalizeAppend` this fixes the result for every input. |
| PanForm.NormalizeDropsExample | app/components/PANForm.tsx:34 | `"ABCDE-1234F"` normalises to `"ABCDE1234F"`: the dash is removed, not replaced. |
| PanForm.PanCharsAreKept | app/components/PANForm.tsx:34 | Text made only of `A-Z0-9` passes through the normaliser unchanged. |
| PanForm.ToUpperPanChar | app/components/PANForm.tsx:34 | Upper-casing maps each lower-case letter `a-z` to its own capital, 32 code points below it, and leaves every other character unchanged. It yields a class character exactly for class characters and lower-case letters. |
| PanForm.ToUpperAlphabet | app/components/PANForm.tsx:34 | Letter by letter through the alphabet, `a` becomes `A`, `b` becomes `B`, up to `z` becoming `Z`. |
| PanForm.StripFixpoint | app/components/PANForm.tsx:34 | Stripping leaves a text unchanged exactly when all its characters are already in `[A-Z0-9]`. |
| PanForm.NormalizeAppend | app/components/PANForm.tsx:34 | The normaliser works character by character: it distributes over concatenation. |
| PanForm.NormalizeIdempotent | app/components/PANForm.tsx:34 | The normaliser's output holds only `A-Z0-9`, and normalising it again changes nothing. |
| PanForm.NormalizeUppercasesAlnum | app/components/PANForm.tsx:34 | Lower-case letters are upper-cased, not dropped. Input made of ASCII letters and digits keeps its length and is upper-cased position by position. |
| PanForm.NormalizeExample | app/components/PANForm.tsx:34 | `"abcde1234f"` normalises to `"ABCDE1234F"`. |
| PanForm.ValidPanIff | app/components/PANForm.tsx:23-24 | The regex accepts a text exactly when it has length 10, letters `A-Z` at positions 0-4, digits at 5-8 and a letter `A-Z` at 9. |
| PanForm.FullMatchLength | app/components/PANForm.tsx:23 | An anchored match of fixed-count repeats consumes the whole text: its length is the sum of the counts, and every character is in `[A-Z0-9]`. |
| PanForm.ValidPanIsNormal | app/components/PANForm.tsx:23-34 | A text the validator accepts has length 10 and is already normalised, so typing it stores it unchanged and the validator still accepts the stored number. |
| PanForm.ValidatorExamples | app/components/PANForm.tsx:23-24 | `"ABCDE1234F"` is accepted and `"ABCD12345F"` is rejected. |
| PanForm.Submit | app/components/PANForm.tsx:19-31 | Submit forwards exactly when the number has the PAN shape. On rejection it sets a non-empty error and forwards nothing. On acceptance it clears the error and forwards the number and flag unchanged. |
| PanForm.RunKeepsInv | app/components/PANForm.tsx:15-36 | Under every sequence of keystrokes and submits, the flag stays true, the stored number is already normalised, and the only error ever shown is the invalid-PAN message. |
| PanForm.ForwardedIsValid | app/components/PANForm.tsx:19-31 | Every forwarded payload matches the PAN pattern and has flag true. Whether submit forwards does not depend on the flag. |
| PanForm.TypedThenSubmitted | app/components/PANForm.tsx:19-36 | After any earlier actions, typing a text and submitting forwards the normalised text with flag true exactly when it has the PAN shape, and otherwise shows the invalid-PAN message and forwards nothing. |
| PanForm.LowerCasePanIsForwarded | app/components/PANForm.tsx:19-36 | Typing `"abcde1234f"` and submitting forwards `"ABCDE1234F"` with flag true. |
| PanForm.SubmittedKeepsNumber | app/components/PANForm.tsx:19-31 | A submit, after any earlier actions, keeps the typed number and the flag. It clears the error when the number has the PAN shape and shows the invalid-PAN message otherwise. |
| BusinessForm.Init | app/components/BusinessForm.tsx:33-48 | The form starts blank: empty store name, category and address fields, country `"INDIA"`, no state, no cities, free-text mode off. It satisfies the form invariant. |
| BusinessForm.SetAddressField | app/components/BusinessForm.tsx:75-82 | Writing one address key sets that key, and every other key reads as before. |
| BusinessForm.SelectState | app/components/BusinessForm.tsx:50-63 | Choosing a different state loads that state's city list, records the state, clears the city and leaves free-text mode, and changes nothing else. Re-choosing the current state is a no-op. |
| BusinessForm.InputChange | app/components/BusinessForm.tsx:70-89 | With an address key, only that address field changes. Without one, only the named top-level field changes. The state selection, city list and mode are kept. |
| BusinessForm.SetCategory | app/components/BusinessForm.tsx:137-140 | The category select writes the chosen value as the category and changes nothing else. |
| BusinessForm.CitySelect | app/components/BusinessForm.tsx:91-111 | `"other"` turns free-text mode on and clears the city. Any other value turns the mode off and becomes the city. Nothing else changes. |
| BusinessForm.FieldInputsWriteTheirField | app/components/BusinessForm.tsx:127-218 | Each rendered input writes its own field and nothing else: store name, pincode and the two address lines take the typed text, an offered category becomes the category, and in free-text mode the city input writes the city. The city and state selects run `handleCitySelect` and the state selection. An action the render does not offer changes nothing. |
| BusinessForm.CitySelectOffersCatalogue | app/components/BusinessForm.tsx:193-209 | After any actions, the city select offers a value exactly when a state is chosen and the value is one of that state's catalogue cities or `"other"`. This is the content of `BusinessForm.Enabled` for the city select. |
| BusinessForm.CatalogueCityIsOffered | app/components/BusinessForm.tsx:196-206 | Choosing a city the select lists runs `handleCitySelect` on it. |
| BusinessForm.ApplyKeepsInv | app/components/BusinessForm.tsx:137-225 | Every action the render offers keeps the form invariant: country `"INDIA"`, a valid or empty category, a city list and address state that follow the selection, and a catalogued or empty city outside free-text mode. |
| BusinessForm.RunKeepsInv | app/components/BusinessForm.tsx:33-225 | The form invariant holds after every sequence of offered actions. |
| BusinessForm.CityIsCatalogued | app/components/BusinessForm.tsx:193-209 | Outside free-text mode, a non-empty city is in the catalogue list of the address's state and is never the sentinel. |
| BusinessForm.SentinelIsNotACity | app/components/BusinessForm.tsx:207 | No catalogue list contains the sentinel `"other"`. |
| BusinessForm.SwitchingStateClearsCity | app/components/BusinessForm.tsx:50-111 | After any earlier actions, choosing Delhi and then the Delhi city `"New Delhi"` records that city. Choosing Karnataka next leaves the city empty. |
| BusinessForm.FreeTextCity | app/components/BusinessForm.tsx:91-100 | Choosing a state, then `"other"`, then typing `"Hampi"` records `"Hampi"` with free-text mode on. |
| IndiaData.Cities | lib/india-data.ts:1-38 | Every state has an entry in the table. Each entry has ten distinct, non-empty city names. |
| IndiaData.Lookup | lib/india-data.ts:40 | A string reads back as a `State` exactly when it is a key of the table, and then it is that state's name. |
| IndiaData.KeysAreStates | lib/india-data.ts:1-40 | The keys are exactly Maharashtra, Delhi and Karnataka. Every `State` names a key and reads back as itself, and the key list names each state once. |
| Utils.Cn | lib/utils.ts:3 | `cn` is `""` exactly when no argument is truthy. With one truthy argument it is that argument. Otherwise its length is the truthy arguments' total length plus one separator per neighbouring pair; `CnAppend` fixes its content. |
| Utils.Kept | lib/utils.ts:3 | The filter keeps no empty string and invents nothing: every kept string was an argument, and every truthy argument is kept. |
| Utils.KeptAppend | lib/utils.ts:3 | The filter distributes over concatenated argument lists. |
| Utils.CnOfNothing | lib/utils.ts:3 | `cn()`, and `cn` of only `undefined` or `""` arguments, is `""`. |
| Utils.CnSingle | lib/utils.ts:3 | `cn(a)` is `a` for any non-empty `a`. |
| Utils.CnDropsFalsy | lib/utils.ts:3 | An `undefined` or `""` argument can be removed from any position without changing the result. |
| Utils.CnIdempotent | lib/utils.ts:3 | `cn(cn(xs...))` equals `cn(xs...)`. |
| Utils.JoinLength | lib/utils.ts:3 | The result's length is the kept arguments' total length plus one separator per neighbouring pair. |
| Utils.JoinAppend | lib/utils.ts:3 | Joining two non-empty lists of parts gives the first join, one space, then the second join, whatever the parts contain. |
| Utils.CnAppend | lib/utils.ts:3 | When both argument lists keep something, `cn` of their concatenation is `cn` of the first, one space, then `cn` of the second, spaces inside arguments included. With `CnSingle` and `CnOfNothing` this fixes `cn` on every input. |
| Utils.CnExample | lib/utils.ts:3 | `cn("flex h-10", undefined, "px-3")` is `"flex h-10 px-3"`. |
| Utils.CnSplitsBack | lib/utils.ts:3 | When some argument is truthy and none contains a space, splitting the result on spaces returns the truthy arguments in their original order. |

## Left out

- Rendering, styling and the UI component library (`Button`, `Input`, `Select`, `RadioGroup`) are left out. They only draw the forms; the model keeps only which actions each render offers.
- app/layout.tsx is not part of this model: it holds page scaffolding and no logic.
- React scheduling is not modelled. Each handler, including the state-selection effect that follows `setSelectedState`, is one atomic transition. Child forms losing their local state when Back unmounts them is not modelled: each form's run starts from its own initial state.
- The browser-enforced `required` and `maxLength={10}` attributes are left out. They are not code; the PAN validator rejects any length other than 10 anyway.
- The `console.log` of the final record is left out. It is output only.
- PanForm.Normalize: upper-cases ASCII letters only, and every non-ASCII character is dropped. JavaScript's `toUpperCase` maps a few non-ASCII characters into `A-Z`, so on those inputs the model gives a different result from the source: `"ß"` normalises to `""` here and to `"SS"` in JavaScript, and `'ı'` gives `""` here and `"I"` there.
- `handleInputChange`'s `field` is a free string in the source. The model restricts it to the two text fields `storeName` and `category`. The only call without an address key passes `"storeName"`, and writing a string over `address` would break the record's type.
- BusinessForm.Submit: has no contract of its own, because it returns the form's record as it stands. Wizard.StoresBusinessForm states what the wizard receives.

=== FILE: business_form.dfy ===
/**
  The business step (app/components/BusinessForm.tsx): store name, product
  category and an address whose city depends on the chosen state. Choosing a
  state loads that state's cities and clears the city; choosing the sentinel
  `"other"` switches to free-text city entry. Submitting forwards the record
  with no checks.
*/
module BusinessForm {
  import opened Wrappers
  import IndiaData

  datatype Address = Address(
    pincode: string,
    addressLine1: string,
    addressLine2: string,
    city: string,
    state: string,
    country: string)

  /** The payload handed to the wizard. */
  datatype BusinessData = BusinessData(storeName: string, category: string, address: Address)

  /** The form's local state: `formData`, `selectedState` (`""` is `None`), the city list
      shown in the city select, and whether the free-text city input is shown. */
  datatype Form = Form(
    data: BusinessData,
    selectedState: Option<IndiaData.State>,
    cities: seq<string>,
    showCustomCity: bool)

  const Country: string := "INDIA"

  /** The city select's extra item that switches to free-text entry. */
  const OtherCity: string := "other"

  /** The category select's items. */
  const Categories: set<string> := {"clothing", "accessories", "footwear"}

  /** The keys `handleInputChange` can write: a top-level field, or one inside `address`. */
  datatype TopField = StoreName | Category
  datatype AddressField = Pincode | AddressLine1 | AddressLine2 | City | StateField | CountryField

  function GetAddressField(a: Address, k: AddressField): string
  {
    match k
    case Pincode => a.pincode
    case AddressLine1 => a.addressLine1
    case AddressLine2 => a.addressLine2
    case City => a.city
    case StateField => a.state
    case CountryField => a.country
  }

  /** `{ ...address, [k]: v }`: writes `k`, and every other field reads as before. */
  function SetAddressField(a: Address, k: AddressField, v: string): (r: Address)
    ensures GetAddressField(r, k) == v
    ensures forall k' :: k' != k ==> GetAddressField(r, k') == GetAddressField(a, k')
  {
    match k
    case Pincode => a.(pincode := v)
    case AddressLine1 => a.(addressLine1 := v)
    case AddressLine2 => a.(addressLine2 := v)
    case City => a.(city := v)
    case StateField => a.(state := v)
    case CountryField => a.(country := v)
  }

  /** All text fields empty and the country fixed: the record a fresh form starts from. */
  predicate IsBlank(d: BusinessData)
  {
    && d.storeName == "" && d.category == ""
    && d.address.country == Country
    && forall k :: k != CountryField ==> GetAddressField(d.address, k) == ""
  }

  /** What every sequence of the form's user actions keeps true. */
  predicate Inv(f: Form)
  {
    && f.data.address.country == Country
    && (f.data.category == "" || f.data.category in Categories)
    && (f.selectedState.None? ==>
          f.cities == [] && !f.showCustomCity && f.data.address.state == "" && f.data.address.city == "")
    && (f.selectedState.Some? ==>
          f.cities == IndiaData.Cities(f.selectedState.value)
          && f.data.address.state == IndiaData.Name(f.selectedState.value))
    && (!f.showCustomCity ==> f.data.address.city == "" || f.data.address.city in f.cities)
  }

  /** `useState({...})` and the three other `useState`s. */
  function Init(): (f: Form)
    ensures IsBlank(f.data) && f.selectedState.None? && Inv(f)
  {
    Form(BusinessData("", "", Address("", "", "", "", "", Country)), None, [], false)
  }

  /** The state select's `onValueChange` followed by the `selectedState` effect. The effect
      fires only when the selection changes, so re-choosing the current state does nothing;
      otherwise the city list becomes the catalogue's, the address takes the state and an
      empty city, and free-text mode is left. Nothing else changes. */
  function SelectState(f: Form, s: IndiaData.State): (r: Form)
    ensures f.selectedState == Some(s) ==> r == f
    ensures f.selectedState != Some(s) ==>
      && r.selectedState == Some(s)
      && r.cities == IndiaData.StatesData[IndiaData.Name(s)]
      && !r.showCustomCity
      && r.data.address.state == IndiaData.Name(s)
      && r.data.address.city == ""
      && r.data.storeName == f.data.storeName && r.data.category == f.data.category
      && forall k :: k != City && k != StateField ==>
           GetAddressField(r.data.address, k) == GetAddressField(f.data.address, k)
  {
    if f.selectedState == Some(s) then f
    else
      var address := f.data.address.(state := IndiaData.Name(s), city := "");
      Form(f.data.(address := address), Some(s), IndiaData.Cities(s), false)
  }

  /** `handleInputChange(e, field, addressField?)`: with an address field, writes that field of
      the address and nothing else; without one, writes the named top-level field and
      nothing else. */
  function InputChange(f: Form, field: TopField, addressField: Option<AddressField>, value: string): (r: Form)
    ensures r.selectedState == f.selectedState && r.cities == f.cities && r.showCustomCity == f.showCustomCity
    ensures addressField.Some? ==>
      && r.data.storeName == f.data.storeName && r.data.category == f.data.category
      && GetAddressField(r.data.address, addressField.value) == value
      && forall k :: k != addressField.value ==>
           GetAddressField(r.data.address, k) == GetAddressField(f.data.address, k)
    ensures addressField.None? ==>
      && r.data.address == f.data.address
      && (if field == StoreName then r.data.storeName == value && r.data.category == f.data.category
          else r.data.category == value && r.data.storeName == f.data.storeName)
  {
    match addressField
    case Some(k) => f.(data := f.data.(address := SetAddressField(f.data.address, k, value)))
    case None =>
      match field
      case StoreName => f.(data := f.data.(storeName := value))
      case Category => f.(data := f.data.(category := value))
  }

  /** The category select's `onValueChange`: the chosen value becomes the category and
      nothing else changes. */
  function SetCategory(f: Form, value: string): (r: Form)
    ensures r.data.category == value
    ensures r.data.storeName == f.data.storeName && r.data.address == f.data.address
    ensures r.selectedState == f.selectedState && r.cities == f.cities && r.showCustomCity == f.showCustomCity
  {
    InputChange(f, Category, None, value)
  }

  /** `handleCitySelect`: the sentinel turns free-text mode on and clears the city; any other
      value turns it off and becomes the city. Nothing else changes. */
  function CitySelect(f: Form, value: string): (r: Form)
    ensures r.showCustomCity <==> value == OtherCity
    ensures r.data.address.city == (if value == OtherCity then "" else value)
    ensures r.selectedState == f.selectedState && r.cities == f.cities
    ensures r.data.storeName == f.data.storeName && r.data.category == f.data.category
    ensures forall k :: k != City ==> GetAddressField(r.data.address, k) == GetAddressField(f.data.address, k)
  {
    if value == OtherCity then
      f.(showCustomCity := true, data := f.data.(address := f.data.address.(city := "")))
    else
      f.(showCustomCity := false, data := f.data.(address := f.data.address.(city := value)))
  }

  /** `handleSubmit`: hands `formData` to the wizard as it stands. */
  function Submit(f: Form): BusinessData
  {
    f.data
  }

  /** The user actions the rendered form wires up. */
  datatype Event =
    | TypeStoreName(value: string)
    | ChooseCategory(value: string)
    | TypePincode(value: string)
    | TypeAddressLine1(value: string)
    | TypeAddressLine2(value: string)
    | ChooseState(state: IndiaData.State)
    | ChooseCity(value: string)
    | TypeCustomCity(value: string)

  /** Whether the current render offers the action: the category select lists three items;
      the city select exists only once a state is chosen and lists that state's cities plus
      the sentinel; the free-text city input exists only in free-text mode. */
  predicate Enabled(f: Form, e: Event)
  {
    match e
    case ChooseCategory(v) => v in Categories
    case ChooseCity(v) => f.selectedState.Some? && (v in f.cities || v == OtherCity)
    case TypeCustomCity(_) => f.showCustomCity
    case _ => true
  }

  /** The handler an enabled action runs; an action the render does not offer cannot happen.
      The address inputs pass `"address"` as `field` together with an address key; with a key
      present `handleInputChange` ignores `field`, so any `TopField` stands in for it here. */
  function Apply(f: Form, e: Event): Form
  {
    if !Enabled(f, e) then f
    else
      match e
      case TypeStoreName(v) => InputChange(f, StoreName, None, v)
      case ChooseCategory(v) => SetCategory(f, v)
      case TypePincode(v) => InputChange(f, StoreName, Some(Pincode), v)
      case TypeAddressLine1(v) => InputChange(f, StoreName, Some(AddressLine1), v)
      case TypeAddressLine2(v) => InputChange(f, StoreName, Some(AddressLine2), v)
      case ChooseState(s) => SelectState(f, s)
      case ChooseCity(v) => CitySelect(f, v)
      case TypeCustomCity(v) => InputChange(f, StoreName, Some(City), v)
  }

  /** The form after the actions `es`, in order. */
  function Run(es: seq<Event>): Form
  {
    if |es| == 0 then Init() else Apply(Run(es[..|es| - 1]), es[|es| - 1])
  }

  /** Every wired-up action preserves the invariant. */
  lemma ApplyKeepsInv(f: Form, e: Event)
    requires Inv(f)
    ensures Inv(Apply(f, e))
  {
  }

  /** Under every sequence of actions the country stays `"INDIA"`, the category is empty or
      one of the three items, the city list and address state follow the selected state, and
      outside free-text mode the city is empty or one of that state's catalogue cities. */
  lemma {:induction false} RunKeepsInv(es: seq<Event>)
    ensures Inv(Run(es))
    decreases |es|
  {
    if |es| > 0 {
      RunKeepsInv(es[..|es| - 1]);
      ApplyKeepsInv(Run(es[..|es| - 1]), es[|es| - 1]);
    }
  }

  /** Each rendered input writes its own field and no other: the store-name, pincode and
      address-line inputs write what was typed into their own field, an offered category
      becomes the category, and in free-text mode the city input writes the city. An action
      the render does not offer changes nothing. */
  lemma FieldInputsWriteTheirField(f: Form, e: Event)
    ensures !Enabled(f, e) ==> Apply(f, e) == f
    ensures e.TypeStoreName? ==> Apply(f, e) == f.(data := f.data.(storeName := e.value))
    ensures e.TypePincode? ==>
      Apply(f, e) == f.(data := f.data.(address := f.data.address.(pincode := e.value)))
    ensures e.TypeAddressLine1? ==>
      Apply(f, e) == f.(data := f.data.(address := f.data.address.(addressLine1 := e.value)))
    ensures e.TypeAddressLine2? ==>
      Apply(f, e) == f.(data := f.data.(address := f.data.address.(addressLine2 := e.value)))
    ensures e.ChooseCategory? && e.value in Categories ==>
      Apply(f, e) == f.(data := f.data.(category := e.value))
    ensures e.TypeCustomCity? && f.showCustomCity ==>
      Apply(f, e) == f.(data := f.data.(address := f.data.address.(city := e.value)))
    ensures e.ChooseCity? && Enabled(f, e) ==> Apply(f, e) == CitySelect(f, e.value)
    ensures e.ChooseState? ==> Apply(f, e) == SelectState(f, e.state)
  {
  }

  /** Outside free-text mode a non-empty city is a catalogue city of the address's state,
      and never the sentinel. */
  lemma CityIsCatalogued(es: seq<Event>)
    ensures var f := Run(es);
      !f.showCustomCity && f.data.address.city != "" ==>
        && f.data.address.state in IndiaData.StatesData
        && f.data.address.city in IndiaData.StatesData[f.data.address.state]
        && f.data.address.city != OtherCity
  {
    RunKeepsInv(es);
    var f := Run(es);
    if !f.showCustomCity && f.data.address.city != "" {
      SentinelIsNotACity(f.selectedState.value);
    }
  }

  /** No catalogue list contains the sentinel, so it is never mistaken for a real city. */
  lemma SentinelIsNotACity(s: IndiaData.State)
    ensures OtherCity !in IndiaData.Cities(s)
  {
  }

  /** Once a state is chosen, the city select offers exactly that state's catalogue cities
      and the sentinel `"other"`; before that it offers nothing. */
  lemma {:induction false} CitySelectOffersCatalogue(es: seq<Event>, v: string)
    ensures var f := Run(es);
      Enabled(f, ChooseCity(v)) <==>
        f.selectedState.Some? && (v in IndiaData.Cities(f.selectedState.value) || v == OtherCity)
  {
    RunKeepsInv(es);
  }

  /** Choosing a catalogue city the select lists runs `handleCitySelect` on it. */
  lemma CatalogueCityIsOffered(f: Form, v: string)
    requires f.selectedState.Some? && v in f.cities
    ensures Apply(f, ChooseCity(v)) == CitySelect(f, v)
  {
  }

  /** Running one more action applies it to the form `es` left. */
  lemma RunSnoc(es: seq<Event>, e: Event)
    ensures Run(es + [e]) == Apply(Run(es), e)
  {
  }

  /** Choosing Delhi then the Delhi city `"New Delhi"` records that city; choosing Karnataka
      next leaves no city behind. */
  lemma SwitchingStateClearsCity(es: seq<Event>)
    ensures Run(es + [ChooseState(IndiaData.Delhi), ChooseCity("New Delhi")]).data.address.city
              == "New Delhi"
    ensures Run(es + [ChooseState(IndiaData.Delhi), ChooseCity("New Delhi"), ChooseState(IndiaData.Karnataka)])
              .data.address.city == ""
  {
    var e1, e2, e3 := ChooseState(IndiaData.Delhi), ChooseCity("New Delhi"), ChooseState(IndiaData.Karnataka);
    RunSnoc(es, e1);
    RunKeepsInv(es + [e1]);
    assert IndiaData.Cities(IndiaData.Delhi)[0] == "New Delhi";
    assert es + [e1] + [e2] == es + [e1, e2];
    RunSnoc(es + [e1], e2);
    RunSnoc(es + [e1] + [e2], e3);
    assert es + [e1] + [e2] + [e3] == es + [e1, e2, e3];
  }

  /** Choosing the sentinel then typing `"Hampi"`, a city in no list, records `"Hampi"`. */
  lemma FreeTextCity(es: seq<Event>, s: IndiaData.State)
    ensures var f := Run(es + [ChooseState(s), ChooseCity(OtherCity), TypeCustomCity("Hampi")]);
      f.data.address.city == "Hampi" && f.showCustomCity
  {
    var e1, e2, e3 := ChooseState(s), ChooseCity(OtherCity), TypeCustomCity("Hampi");
    RunSnoc(es, e1);
    RunSnoc(es + [e1], e2);
    RunSnoc(es + [e1] + [e2], e3);
    assert es + [e1] + [e2] + [e3] == es + [e1, e2, e3];
  }
}

=== FILE: gst_form.dfy ===
/**
  The GST step (app/components/GSTForm.tsx): a number typed verbatim and a
  registered / unregistered radio pair. Submitting forwards both fields; the
  step checks nothing.
*/
module GstForm {

  /** The payload handed to the wizard: `{ gstNumber, isRegistered }`. */
  datatype GstData = GstData(gstNumber: string, isRegistered: bool)

  /** The form's local state. */
  datatype Form = Form(gstNumber: string, isRegistered: bool)

  /** `useState("")` and `useState(true)`. */
  function Init(): (f: Form)
    ensures f.gstNumber == "" && f.isRegistered
  {
    Form("", true)
  }

  /** The input's `onChange`: stores the typed text with no case or character change. */
  function TypeNumber(f: Form, value: string): (r: Form)
    ensures r.gstNumber == value && r.isRegistered == f.isRegistered
  {
    f.(gstNumber := value)
  }

  /** The radio buttons' `onChange`s: `true` for "registered", `false` for "unregistered".
      Neither touches the number. */
  function PickRegistration(f: Form, registered: bool): (r: Form)
    ensures r.isRegistered == registered && r.gstNumber == f.gstNumber
  {
    f.(isRegistered := registered)
  }

  /** `handleSubmit`: forwards the two fields, whatever they hold. */
  function Submit(f: Form): (d: GstData)
    ensures d.gstNumber == f.gstNumber && d.isRegistered == f.isRegistered
  {
    GstData(f.gstNumber, f.isRegistered)
  }

  /** The user actions the form renders. */
  datatype Event = Typed(value: string) | Registered | Unregistered

  function Apply(f: Form, e: Event): Form
  {
    match e
    case Typed(v) => TypeNumber(f, v)
    case Registered => PickRegistration(f, true)
    case Unregistered => PickRegistration(f, false)
  }

  /** The form after the events `es`, in order. */
  function Run(es: seq<Event>): Form
  {
    if |es| == 0 then Init() else Apply(Run(es[..|es| - 1]), es[|es| - 1])
  }

  /** The most recently typed text, or `""` when nothing was typed. */
  function LastTyped(es: seq<Event>): string
  {
    if |es| == 0 then ""
    else if es[|es| - 1].Typed? then es[|es| - 1].value
    else LastTyped(es[..|es| - 1])
  }

  /** The most recent radio choice, or `true` when neither radio was clicked. */
  function LastChoice(es: seq<Event>): bool
  {
    if |es| == 0 then true
    else if es[|es| - 1].Registered? then true
    else if es[|es| - 1].Unregistered? then false
    else LastChoice(es[..|es| - 1])
  }

  /** Whatever the user did, the submitted number is exactly the last text typed (no
      normalisation, no format check, not cleared by "unregistered") and the flag is the
      last radio clicked. */
  lemma {:induction false} SubmitForwardsLastInput(es: seq<Event>)
    ensures Submit(Run(es)) == GstData(LastTyped(es), LastChoice(es))
    decreases |es|
  {
    if |es| > 0 {
      SubmitForwardsLastInput(es[..|es| - 1]);
    }
  }

  /** Any text at all is accepted: even with "unregistered" picked, the number typed
      is forwarded as it stands. */
  lemma SubmitAcceptsAnyText(value: string)
    ensures Submit(Run([Typed(value), Unregistered])) == GstData(value, false)
  {
  }
}

=== FILE: india_data.dfy ===
/**
  The region catalogue of lib/india-data.ts: a read-only table from state name
  to its list of cities. `State` is exactly the table's key set.
*/
module IndiaData {
  import opened Wrappers

  /** `keyof typeof statesData` */
  datatype State = Maharashtra | Delhi | Karnataka

  /** The key of `s` in the table. */
  function Name(s: State): string
  {
    match s
    case Maharashtra => "Maharashtra"
    case Delhi => "Delhi"
    case Karnataka => "Karnataka"
  }

  /** `Object.keys(statesData)`: the keys in declaration order, as the state select lists them. */
  const StateKeys: seq<State> := [Maharashtra, Delhi, Karnataka]

  /** `statesData`, a constant the program never writes to. */
  const StatesData: map<string, seq<string>> := map[
    "Maharashtra" := ["Mumbai", "Pune", "Nagpur", "Nashik", "Aurangabad",
                      "Solapur", "Amravati", "Kolhapur", "Thane", "Navi Mumbai"],
    "Delhi" := ["New Delhi", "North Delhi", "South Delhi", "East Delhi", "West Delhi",
                "Central Delhi", "Shahdara", "North West Delhi", "South West Delhi",
                "North East Delhi"],
    "Karnataka" := ["Bangalore", "Mysore", "Hubli", "Mangalore", "Belgaum",
                    "Gulbarga", "Dharwad", "Shimoga", "Bijapur", "Davanagere"]
  ]

  /** No name occurs twice in `xs`. */
  predicate Distinct(xs: seq<string>)
  {
    forall i, j :: 0 <= i < j < |xs| ==> xs[i] != xs[j]
  }

  /** `statesData[s]`: every state has an entry of ten distinct, non-empty city names. */
  function Cities(s: State): (cs: seq<string>)
    ensures Name(s) in StatesData && StatesData[Name(s)] == cs
    ensures |cs| == 10
    ensures Distinct(cs)
    ensures forall i :: 0 <= i < |cs| ==> cs[i] != ""
  {
    StatesData[Name(s)]
  }

  /** Reads a key back as a `State`: `None` for any string that is not a key. */
  function Lookup(key: string): (r: Option<State>)
    ensures r.Some? <==> key in StatesData
    ensures r.Some? ==> Name(r.value) == key
  {
    if key == "Maharashtra" then Some(Maharashtra)
    else if key == "Delhi" then Some(Delhi)
    else if key == "Karnataka" then Some(Karnataka)
    else None
  }

  /** The keys are exactly Maharashtra, Delhi and Karnataka, each one a `State`'s name,
      and `Object.keys` lists every state exactly once. */
  lemma KeysAreStates()
    ensures StatesData.Keys == {"Maharashtra", "Delhi", "Karnataka"}
    ensures forall s: State :: Name(s) in StatesData && Lookup(Name(s)) == Some(s)
    ensures forall s: State :: s in StateKeys
    ensures |StateKeys| == |StatesData|
  {
    forall s: State
      ensures s in StateKeys
    {
      match s
      case Maharashtra => assert StateKeys[0] == s;
      case Delhi => assert StateKeys[1] == s;
      case Karnataka => assert StateKeys[2] == s;
    }
  }
}

=== FILE: pan_form.dfy ===
/**
  The PAN step (app/components/PANForm.tsx): every keystroke normalises the
  input (upper-case, then drop everything outside `[A-Z0-9]`), and submitting
  checks it against `/^[A-Z]{5}[0-9]{4}[A-Z]{1}$/`, either showing an error or
  forwarding the number.
*/
module PanForm {
  import opened Wrappers

  /** The payload handed to the wizard: `{ panNumber, isRegistered }`. */
  datatype PanData = PanData(panNumber: string, isRegistered: bool)

  /** The form's local state; `error` is the message shown under the input. */
  datatype Form = Form(panNumber: string, isRegistered: bool, error: string)

  const InvalidPanMessage: string := "Please enter a valid PAN number."

  predicate IsUpperLetter(c: char) { 'A' <= c <= 'Z' }
  predicate IsLowerLetter(c: char) { 'a' <= c <= 'z' }
  predicate IsDigit(c: char) { '0' <= c <= '9' }

  /** The character class `[A-Z0-9]`. */
  predicate IsPanChar(c: char) { IsUpperLetter(c) || IsDigit(c) }

  /** `toUpperCase` on one ASCII character. */
  function ToUpper(c: char): char
  {
    if IsLowerLetter(c) then (c as int - 'a' as int + 'A' as int) as char else c
  }

  /** `toUpperCase` on a string, character by character. */
  function UpperCase(s: string): string
  {
    seq(|s|, i requires 0 <= i < |s| => ToUpper(s[i]))
  }

  /** `replace(/[^A-Z0-9]/g, "")`: keeps the characters of the class, in order. */
  function Strip(s: string): (r: string)
    ensures |r| <= |s|
    ensures forall i :: 0 <= i < |r| ==> IsPanChar(r[i])
  {
    if |s| == 0 then ""
    else if IsPanChar(s[0]) then [s[0]] + Strip(s[1..])
    else Strip(s[1..])
  }

  /** `handlePanNumberChange`'s transformation of the raw input. */
  function Normalize(s: string): string
  {
    Strip(UpperCase(s))
  }

  /** The building block of the PAN pattern: `cls{count}`. */
  datatype CharClass = UpperLetters | Digits
  datatype Repeat = Repeat(cls: CharClass, count: nat)

  predicate InClass(cls: CharClass, c: char)
  {
    match cls
    case UpperLetters => IsUpperLetter(c)
    case Digits => IsDigit(c)
  }

  /** An anchored match (`^ … $`) of a concatenation of fixed-count repeats. */
  predicate FullMatch(pattern: seq<Repeat>, s: string)
    decreases |pattern|
  {
    if |pattern| == 0 then |s| == 0
    else
      var n := pattern[0].count;
      && |s| >= n
      && (forall i :: 0 <= i < n ==> InClass(pattern[0].cls, s[i]))
      && FullMatch(pattern[1..], s[n..])
  }

  /** `/^[A-Z]{5}[0-9]{4}[A-Z]{1}$/` */
  const PanPattern: seq<Repeat> := [Repeat(UpperLetters, 5), Repeat(Digits, 4), Repeat(UpperLetters, 1)]

  predicate IsValidPan(s: string)
  {
    FullMatch(PanPattern, s)
  }

  /** The pattern by position: ten characters, letters at 0-4, digits at 5-8, a letter at 9. */
  predicate PanShape(s: string)
  {
    && |s| == 10
    && (forall i :: 0 <= i < 5 ==> IsUpperLetter(s[i]))
    && (forall i :: 5 <= i < 9 ==> IsDigit(s[i]))
    && IsUpperLetter(s[9])
  }

  /** `useState("")`, `useState(true)`, `useState("")`. */
  function Init(): (f: Form)
    ensures f.panNumber == "" && f.isRegistered && f.error == ""
  {
    Form("", true, "")
  }

  /** `handlePanNumberChange`: the stored number is the normalised input; the flag and the
      error message stay as they were. */
  function TypeNumber(f: Form, raw: string): (r: Form)
    ensures r.panNumber == Normalize(raw)
    ensures forall i :: 0 <= i < |r.panNumber| ==> IsPanChar(r.panNumber[i])
    ensures |r.panNumber| <= |raw|
    ensures r.isRegistered == f.isRegistered && r.error == f.error
  {
    f.(panNumber := Normalize(raw))
  }

  /** What a submit produces: the form's new state and, when accepted, the payload passed
      to `onNext`. */
  datatype Outcome = Outcome(form: Form, forwarded: Option<PanData>)

  /** `handleSubmit`: a number outside the pattern sets a non-empty error and calls nothing;
      one inside clears the error and forwards the number and flag unchanged. */
  function Submit(f: Form): (r: Outcome)
    ensures r.forwarded.Some? <==> PanShape(f.panNumber)
    ensures r.forwarded.None? ==> r.form.error != ""
    ensures r.forwarded.Some? ==> r.form.error == "" && r.forwarded.value == PanData(f.panNumber, f.isRegistered)
    ensures r.form.panNumber == f.panNumber && r.form.isRegistered == f.isRegistered
  {
    ValidPanIff(f.panNumber);
    if !IsValidPan(f.panNumber) then Outcome(f.(error := InvalidPanMessage), None)
    else Outcome(f.(error := ""), Some(PanData(f.panNumber, f.isRegistered)))
  }

  /** The user actions the form renders (Back leaves the form and is the wizard's). */
  datatype Event = Typed(raw: string) | Submitted

  function Apply(f: Form, e: Event): Form
  {
    match e
    case Typed(raw) => TypeNumber(f, raw)
    case Submitted => Submit(f).form
  }

  /** The form after the events `es`, in order. */
  function Run(es: seq<Event>): Form
  {
    if |es| == 0 then Init() else Apply(Run(es[..|es| - 1]), es[|es| - 1])
  }

  /** What the form keeps true under every sequence of user actions. */
  predicate Inv(f: Form)
  {
    && f.isRegistered
    && Normalize(f.panNumber) == f.panNumber
    && (f.error == "" || f.error == InvalidPanMessage)
  }

  // ----- The pattern -----

  function SumCounts(pattern: seq<Repeat>): nat
  {
    if |pattern| == 0 then 0 else pattern[0].count + SumCounts(pattern[1..])
  }

  /** An anchored match of fixed-count repeats consumes the whole text, one character per
      repeat step, each in its repeat's class. */
  lemma {:induction false} FullMatchLength(pattern: seq<Repeat>, s: string)
    requires FullMatch(pattern, s)
    ensures |s| == SumCounts(pattern)
    ensures forall i :: 0 <= i < |s| ==> IsPanChar(s[i])
    decreases |pattern|
  {
    if |pattern| > 0 {
      var n := pattern[0].count;
      FullMatchLength(pattern[1..], s[n..]);
      forall i | 0 <= i < |s|
        ensures IsPanChar(s[i])
      {
        if i >= n {
          assert s[n..][i - n] == s[i];
        }
      }
    }
  }

  /** The validator accepts exactly the strings of the PAN shape. */
  lemma ValidPanIff(s: string)
    ensures IsValidPan(s) <==> PanShape(s)
  {
    var p1 := PanPattern[1..];
    var p2 := PanPattern[2..];
    assert p1 == [Repeat(Digits, 4), Repeat(UpperLetters, 1)];
    assert p2 == [Repeat(UpperLetters, 1)];
    assert p2[1..] == [];
    if |s| >= 10 {
      assert s[5..][4..] == s[9..];
      assert s[9..][1..] == s[10..];
      assert FullMatch(p2, s[9..]) <==> |s| == 10 && IsUpperLetter(s[9]) by {
        assert |s[9..]| >= 1 ==> s[9..][0] == s[9];
      }
      assert FullMatch(p1, s[5..]) <==>
        (forall i :: 5 <= i < 9 ==> IsDigit(s[i])) && FullMatch(p2, s[9..]) by {
        assert forall i :: 0 <= i < 4 ==> s[5..][i] == s[5 + i];
      }
    }
  }

  // ----- The normaliser -----

  /** ASCII upper-casing: a lower-case letter becomes its own capital, 32 code points
      below it; every other character is left alone. */
  lemma ToUpperPanChar(c: char)
    ensures IsPanChar(c) ==> ToUpper(c) == c
    ensures IsLowerLetter(c) ==> IsUpperLetter(ToUpper(c)) && ToUpper(c) as int == c as int - 32
    ensures !IsLowerLetter(c) ==> ToUpper(c) == c
    ensures IsPanChar(ToUpper(c)) <==> IsPanChar(c) || IsLowerLetter(c)
  {
  }

  /** Each lower-case letter becomes its own capital, letter by letter through the alphabet. */
  lemma ToUpperAlphabet()
    ensures forall i :: 0 <= i < 26 ==>
      ToUpper("abcdefghijklmnopqrstuvwxyz"[i]) == "ABCDEFGHIJKLMNOPQRSTUVWXYZ"[i]
  {
  }

  /** Stripping removes nothing exactly when every character is already in the class. */
  lemma {:induction false} StripFixpoint(s: string)
    ensures Strip(s) == s <==> forall i :: 0 <= i < |s| ==> IsPanChar(s[i])
    decreases |s|
  {
    if |s| > 0 {
      StripFixpoint(s[1..]);
      if !IsPanChar(s[0]) {
        assert |Strip(s)| <= |s[1..]| < |s|;
      } else {
        assert forall i :: 1 <= i < |s| ==> s[1..][i - 1] == s[i];
        assert s == [s[0]] + s[1..];
      }
    }
  }

  /** Normalising distributes over concatenation: the input is treated character by character. */
  lemma {:induction false} NormalizeAppend(a: string, b: string)
    ensures Normalize(a + b) == Normalize(a) + Normalize(b)
    decreases |a|
  {
    if |a| == 0 {
      assert a + b == b;
    } else {
      assert UpperCase(a + b)[1..] == UpperCase(a[1..] + b);
      assert UpperCase(a)[1..] == UpperCase(a[1..]);
      NormalizeAppend(a[1..], b);
    }
  }

  /** On one character the normaliser upper-cases it, then keeps it if it is in `[A-Z0-9]`
      and removes it otherwise; with `NormalizeAppend` this fixes the result for every input. */
  lemma NormalizeChar(c: char)
    ensures Normalize([c]) == if IsPanChar(ToUpper(c)) then [ToUpper(c)] else ""
  {
    assert UpperCase([c]) == [ToUpper(c)];
    assert [ToUpper(c)][1..] == [];
  }

  /** `"ABCDE-1234F"` becomes `"ABCDE1234F"`: the dash is removed, not replaced. */
  lemma NormalizeDropsExample()
    ensures Normalize("ABCDE-1234F") == "ABCDE1234F"
  {
    assert "ABCDE-1234F" == "ABCDE" + "-" + "1234F";
    assert "ABCDE1234F" == "ABCDE" + "1234F";
    PanCharsAreKept("ABCDE");
    PanCharsAreKept("1234F");
    NormalizeChar('-');
    NormalizeAppend("ABCDE", "-");
    NormalizeAppend("ABCDE" + "-", "1234F");
  }

  /** Text already made of `A-Z0-9` passes through the normaliser unchanged. */
  lemma PanCharsAreKept(s: string)
    requires forall i :: 0 <= i < |s| ==> IsPanChar(s[i])
    ensures Normalize(s) == s
  {
    assert UpperCase(s) == s by {
      forall i | 0 <= i < |s|
        ensures UpperCase(s)[i] == s[i]
      {
        ToUpperPanChar(s[i]);
      }
    }
    StripFixpoint(s);
  }

  /** The normaliser's output contains only `A-Z` and `0-9`, and normalising it again
      changes nothing. */
  lemma NormalizeIdempotent(s: string)
    ensures forall i :: 0 <= i < |Normalize(s)| ==> IsPanChar(Normalize(s)[i])
    ensures Normalize(Normalize(s)) == Normalize(s)
  {
    var n := Normalize(s);
    assert UpperCase(n) == n by {
      forall i | 0 <= i < |n|
        ensures UpperCase(n)[i] == n[i]
      {
        ToUpperPanChar(n[i]);
      }
    }
    StripFixpoint(n);
  }

  /** Lower-case letters are upper-cased, not dropped: an input made only of ASCII letters
      and digits keeps its length and is upper-cased position by position. */
  lemma NormalizeUppercasesAlnum(s: string)
    requires forall i :: 0 <= i < |s| ==> IsPanChar(s[i]) || IsLowerLetter(s[i])
    ensures |Normalize(s)| == |s|
    ensures forall i :: 0 <= i < |s| ==> Normalize(s)[i] == ToUpper(s[i])
  {
    var u := UpperCase(s);
    forall i | 0 <= i < |u|
      ensures IsPanChar(u[i])
    {
      ToUpperPanChar(s[i]);
    }
    StripFixpoint(u);
  }

  /** `"abcde1234f"` becomes `"ABCDE1234F"`: lower-case letters are upper-cased, not dropped. */
  lemma NormalizeExample()
    ensures Normalize("abcde1234f") == "ABCDE1234F"
  {
    assert "abcde1234f" == "abcde" + "1234" + "f";
    assert "ABCDE1234F" == "ABCDE" + "1234" + "F";
    LowerLettersUppercased();
    PanCharsAreKept("1234");
    NormalizeAppend("abcde", "1234");
    NormalizeAppend("abcde" + "1234", "f");
  }

  /** Lower-case letters alone come out upper-cased. */
  lemma LowerLettersUppercased()
    ensures Normalize("abcde") == "ABCDE"
    ensures Normalize("f") == "F"
  {
    NormalizeUppercasesAlnum("abcde");
    NormalizeUppercasesAlnum("f");
  }

  /** `"ABCDE1234F"` is accepted; `"ABCD12345F"`, with a letter and a digit swapped, is not. */
  lemma ValidatorExamples()
    ensures IsValidPan("ABCDE1234F")
    ensures !IsValidPan("ABCD12345F")
  {
    ValidPanIff("ABCDE1234F");
    ValidPanIff("ABCD12345F");
    assert !IsUpperLetter("ABCD12345F"[4]);
  }

  /** A text the validator accepts is ten characters long and already normalised, so typing
      it stores it unchanged and the validator still accepts the stored number. */
  lemma ValidPanIsNormal(s: string)
    requires IsValidPan(s)
    ensures |s| == 10
    ensures Normalize(s) == s
  {
    FullMatchLength(PanPattern, s);
    assert SumCounts(PanPattern) == 10 by {
      assert PanPattern[1..][1..] == [Repeat(UpperLetters, 1)];
      assert PanPattern[1..][1..][1..] == [];
    }
    NormalizeUppercasesAlnum(s);
    forall i | 0 <= i < |s|
      ensures Normalize(s)[i] == s[i]
    {
      ToUpperPanChar(s[i]);
    }
  }

  // ----- The form -----

  /** No handler ever changes the flag, every stored number is already normalised, and the
      only error ever shown is the invalid-PAN message. */
  lemma {:induction false} RunKeepsInv(es: seq<Event>)
    ensures Inv(Run(es))
    decreases |es|
  {
    if |es| == 0 {
      assert Normalize("") == "";
    } else {
      RunKeepsInv(es[..|es| - 1]);
      var e := es[|es| - 1];
      if e.Typed? {
        NormalizeIdempotent(e.raw);
      }
    }
  }

  /** Every payload the form ever forwards matches the PAN pattern and carries
      `isRegistered == true`; validation does not look at the flag. */
  lemma ForwardedIsValid(es: seq<Event>)
    ensures Submit(Run(es)).forwarded.Some? ==>
      var d := Submit(Run(es)).forwarded.value;
      IsValidPan(d.panNumber) && d.isRegistered
    ensures forall b: bool :: Submit(Run(es).(isRegistered := b)).forwarded.Some? == Submit(Run(es)).forwarded.Some?
  {
    RunKeepsInv(es);
    ValidPanIff(Run(es).panNumber);
  }

  /** A keystroke followed by a submit, after any earlier actions: the form forwards the
      normalised input with flag true exactly when that matches the pattern, and otherwise
      shows the invalid-PAN message and forwards nothing. */
  lemma TypedThenSubmitted(es: seq<Event>, raw: string)
    ensures PanShape(Normalize(raw)) ==>
      Submit(Run(es + [Typed(raw)])).forwarded == Some(PanData(Normalize(raw), true))
    ensures !PanShape(Normalize(raw)) ==>
      Submit(Run(es + [Typed(raw)])).forwarded.None?
      && Submit(Run(es + [Typed(raw)])).form.error == InvalidPanMessage
  {
    RunKeepsInv(es);
    assert (es + [Typed(raw)])[..|es|] == es;
  }

  /** Typing `"abcde1234f"` and submitting forwards `"ABCDE1234F"` with flag true. */
  lemma LowerCasePanIsForwarded()
    ensures Submit(Run([Typed("abcde1234f")])).forwarded == Some(PanData("ABCDE1234F", true))
  {
    NormalizeExample();
    ValidatorExamples();
    ValidPanIff("ABCDE1234F");
    TypedThenSubmitted([], "abcde1234f");
    assert [] + [Typed("abcde1234f")] == [Typed("abcde1234f")];
  }

  /** A submit keeps the typed number, whatever the outcome, and sets the error to nothing
      when the number has the PAN shape and to the invalid-PAN message otherwise. */
  lemma SubmittedKeepsNumber(es: seq<Event>)
    ensures Run(es + [Submitted]).panNumber == Run(es).panNumber
    ensures Run(es + [Submitted]).isRegistered == Run(es).isRegistered
    ensures Run(es + [Submitted]).error ==
      if PanShape(Run(es).panNumber) then "" else InvalidPanMessage
  {
    assert (es + [Submitted])[..|es|] == es;
  }
}

=== FILE: utils.dfy ===
/**
  The class-name helper of lib/utils.ts: `cn(...classes)` keeps the truthy
  arguments (`filter(Boolean)`) and joins them with one space (`join(' ')`).
  An argument is `string | undefined`; `undefined` is `None`.
*/
module Utils {
  import opened Wrappers

  /** JavaScript's `Boolean(x)` on a `string | undefined`: false for `undefined` and `""`. */
  predicate Truthy(a: Option<string>)
  {
    a.Some? && a.value != ""
  }

  /** `classes.filter(Boolean)`: the truthy arguments' strings, in their original order. */
  function Kept(args: seq<Option<string>>): (r: seq<string>)
    ensures |r| <= |args|
    ensures forall i :: 0 <= i < |r| ==> r[i] != ""
    ensures forall i :: 0 <= i < |args| && Truthy(args[i]) ==> args[i].value in r
    ensures forall p :: p in r ==> Some(p) in args
  {
    if |args| == 0 then []
    else
      var rest := Kept(args[1..]);
      assert forall a :: a in args[1..] ==> a in args;
      if Truthy(args[0]) then [args[0].value] + rest else rest
  }

  /** `parts.join(' ')`: the parts with one space between neighbours. */
  function Join(parts: seq<string>): string
  {
    if |parts| == 0 then ""
    else if |parts| == 1 then parts[0]
    else parts[0] + " " + Join(parts[1..])
  }

  /** `s.split(' ')`: the maximal space-free pieces of `s`; `""` splits into `[""]`. */
  function Split(s: string): (r: seq<string>)
    ensures |r| >= 1
    ensures forall i :: 0 <= i < |r| ==> ' ' !in r[i]
  {
    if |s| == 0 then [""]
    else if s[0] == ' ' then [""] + Split(s[1..])
    else
      var rest := Split(s[1..]);
      [[s[0]] + rest[0]] + rest[1..]
  }

  /** `cn(...classes)`: empty when no argument is truthy, the one truthy argument itself when
      there is one, and otherwise every truthy argument plus one separator per neighbouring
      pair. */
  function Cn(args: seq<Option<string>>): (r: string)
    ensures Kept(args) == [] <==> r == ""
    ensures |Kept(args)| == 1 ==> r == Kept(args)[0]
    ensures Kept(args) != [] ==> |r| == TotalLength(Kept(args)) + |Kept(args)| - 1
  {
    var parts := Kept(args);
    if parts == [] then "" else JoinLength(parts); Join(parts)
  }

  /** The summed length of `parts`. */
  function TotalLength(parts: seq<string>): nat
  {
    if |parts| == 0 then 0 else |parts[0]| + TotalLength(parts[1..])
  }

  /** `filter` distributes over argument lists that are concatenated. */
  lemma {:induction false} KeptAppend(xs: seq<Option<string>>, ys: seq<Option<string>>)
    ensures Kept(xs + ys) == Kept(xs) + Kept(ys)
    decreases |xs|
  {
    if |xs| == 0 {
      assert xs + ys == ys;
    } else {
      assert (xs + ys)[1..] == xs[1..] + ys;
      KeptAppend(xs[1..], ys);
    }
  }

  /** With no arguments, and with only falsy ones, `cn` yields the empty string. */
  lemma {:induction false} CnOfNothing(args: seq<Option<string>>)
    requires forall i :: 0 <= i < |args| ==> !Truthy(args[i])
    ensures Cn(args) == ""
    decreases |args|
  {
    if |args| > 0 {
      CnOfNothing(args[1..]);
    }
  }

  /** `cn(a)` is `a` for any non-empty `a`. */
  lemma CnSingle(a: string)
    requires a != ""
    ensures Cn([Some(a)]) == a
  {
  }

  /** `undefined` and `""` arguments are dropped wherever they occur. */
  lemma CnDropsFalsy(xs: seq<Option<string>>, a: Option<string>, ys: seq<Option<string>>)
    requires !Truthy(a)
    ensures Cn(xs + [a] + ys) == Cn(xs + ys)
  {
    KeptAppend(xs + [a], ys);
    KeptAppend(xs, [a]);
    KeptAppend(xs, ys);
    assert Kept([a]) == [] by {
      assert [a][1..] == [];
    }
    assert Kept(xs + [a] + ys) == Kept(xs + [a]) + Kept(ys) == Kept(xs) + Kept(ys);
  }

  /** Feeding `cn`'s result back into `cn` changes nothing. */
  lemma CnIdempotent(args: seq<Option<string>>)
    ensures Cn([Some(Cn(args))]) == Cn(args)
  {
  }

  /** The result holds every kept argument plus one separator between each neighbouring pair. */
  lemma {:induction false} JoinLength(parts: seq<string>)
    requires |parts| > 0
    ensures |Join(parts)| == TotalLength(parts) + |parts| - 1
    decreases |parts|
  {
    if |parts| > 1 {
      JoinLength(parts[1..]);
    }
  }

  /** Joining two non-empty lists of parts puts exactly one space between their joins. */
  lemma {:induction false} JoinAppend(a: seq<string>, b: seq<string>)
    requires a != [] && b != []
    ensures Join(a + b) == Join(a) + " " + Join(b)
    decreases |a|
  {
    if |a| == 1 {
      assert (a + b)[0] == a[0];
      assert (a + b)[1..] == b;
    } else {
      assert (a + b)[0] == a[0];
      assert (a + b)[1..] == a[1..] + b;
      JoinAppend(a[1..], b);
    }
  }

  /** `cn(...xs, ...ys)` is `cn(...xs)`, one space and `cn(...ys)` whenever both sides keep
      something. With `CnSingle` and `CnOfNothing` this fixes `cn` on every argument list,
      spaces inside arguments included. */
  lemma CnAppend(xs: seq<Option<string>>, ys: seq<Option<string>>)
    requires Kept(xs) != [] && Kept(ys) != []
    ensures Cn(xs + ys) == Cn(xs) + " " + Cn(ys)
  {
    KeptAppend(xs, ys);
    JoinAppend(Kept(xs), Kept(ys));
  }

  /** `cn("flex h-10", undefined, "px-3")` is `"flex h-10 px-3"`: a space inside an argument is kept. */
  lemma CnExample()
    ensures Cn([Some("flex h-10"), None, Some("px-3")]) == "flex h-10 px-3"
  {
    var xs: seq<Option<string>> := [Some("flex h-10"), None];
    var ys: seq<Option<string>> := [Some("px-3")];
    assert xs + ys == [Some("flex h-10"), None, Some("px-3")];
    assert Kept(xs) == ["flex h-10"] by {
      assert Kept(xs[1..]) == [] by { assert xs[1..][1..] == []; }
    }
    assert Kept(ys) == ["px-3"] by { assert ys[1..] == []; }
    CnAppend(xs, ys);
  }

  /** Splitting a space-free string followed by a space peels it off as the first piece. */
  lemma {:induction false} SplitPrefix(p: string, t: string)
    requires ' ' !in p
    ensures Split(p + " " + t) == [p] + Split(t)
    decreases |p|
  {
    if |p| == 0 {
      assert p + " " + t == [' '] + t;
      assert ([' '] + t)[1..] == t;
    } else {
      assert (p + " " + t)[1..] == p[1..] + " " + t;
      assert ' ' !in p[1..] by {
        assert forall c :: c in p[1..] ==> c in p;
      }
      SplitPrefix(p[1..], t);
      assert [p[0]] + p[1..] == p;
    }
  }

  /** A space-free string is a single piece. */
  lemma {:induction false} SplitWord(p: string)
    requires ' ' !in p
    ensures Split(p) == [p]
    decreases |p|
  {
    if |p| > 0 {
      assert ' ' !in p[1..] by {
        assert forall c :: c in p[1..] ==> c in p;
      }
      SplitWord(p[1..]);
      assert [p[0]] + p[1..] == p;
    }
  }

  /** `split(' ')` undoes `join(' ')` when no part contains a space. */
  lemma {:induction false} SplitJoin(parts: seq<string>)
    requires |parts| > 0
    requires forall i :: 0 <= i < |parts| ==> ' ' !in parts[i]
    ensures Split(Join(parts)) == parts
    decreases |parts|
  {
    if |parts| == 1 {
      SplitWord(parts[0]);
    } else {
      SplitPrefix(parts[0], Join(parts[1..]));
      SplitJoin(parts[1..]);
      assert parts == [parts[0]] + parts[1..];
    }
  }

  /** `cn` keeps the truthy arguments in their original order: splitting its result on
      spaces gives them back exactly, when they are space-free. */
  lemma CnSplitsBack(args: seq<Option<string>>)
    requires Kept(args) != []
    requires forall i :: 0 <= i < |args| && args[i].Some? ==> ' ' !in args[i].value
    ensures Split(Cn(args)) == Kept(args)
  {
    forall j | 0 <= j < |Kept(args)|
      ensures ' ' !in Kept(args)[j]
    {
      assert Some(Kept(args)[j]) in args;
    }
    SplitJoin(Kept(args));
  }
}

=== FILE: wizard.dfy ===
/**
  The wizard page (app/page.tsx): a step counter and the accumulated record
  `{ gst, pan, business }`. Step 1 shows the GST form, step 2 the PAN form,
  step 3 the business form. A form's submit stores its sub-record and moves on;
  Back moves the counter down and keeps the record. The last submit stores the
  business record and leaves the step at 3: there is no further state.
*/
module Wizard {
  import GstForm
  import PanForm
  import BusinessForm

  datatype FormData = FormData(
    gst: GstForm.GstData,
    pan: PanForm.PanData,
    business: BusinessForm.BusinessData)

  /** The page's state: `step` and `formData`. */
  datatype Home = Home(step: int, data: FormData)

  /** The three forms the page can render. */
  datatype Screen = GstScreen | PanScreen | BusinessScreen

  /** The page's own initial business record. */
  function BlankBusiness(): BusinessForm.BusinessData
  {
    BusinessForm.BusinessData("", "", BusinessForm.Address("", "", "", "", "", "INDIA"))
  }

  /** `useState(1)` and the initial `formData`: both flags true, every text empty except the
      country, which is `"INDIA"`; the business record is the one a fresh business form holds. */
  function Init(): (h: Home)
    ensures h.step == 1
    ensures h.data.gst == GstForm.Submit(GstForm.Init())
    ensures h.data.pan == PanForm.PanData(PanForm.Init().panNumber, PanForm.Init().isRegistered)
    ensures h.data.business == BusinessForm.Init().data && BusinessForm.IsBlank(h.data.business)
  {
    Home(1, FormData(GstForm.GstData("", true), PanForm.PanData("", true), BlankBusiness()))
  }

  /** `handleGSTSubmit`: replaces only `gst` and shows step 2. */
  function GstSubmit(h: Home, d: GstForm.GstData): (r: Home)
    ensures r.step == 2
    ensures r.data.gst == d && r.data.pan == h.data.pan && r.data.business == h.data.business
  {
    Home(2, h.data.(gst := d))
  }

  /** `handlePANSubmit`: replaces only `pan` and shows step 3. */
  function PanSubmit(h: Home, d: PanForm.PanData): (r: Home)
    ensures r.step == 3
    ensures r.data.pan == d && r.data.gst == h.data.gst && r.data.business == h.data.business
  {
    Home(3, h.data.(pan := d))
  }

  /** `handleBusinessSubmit`: replaces only `business`; the step does not move. */
  function BusinessSubmit(h: Home, d: BusinessForm.BusinessData): (r: Home)
    ensures r.step == h.step
    ensures r.data.business == d && r.data.gst == h.data.gst && r.data.pan == h.data.pan
  {
    h.(data := h.data.(business := d))
  }

  /** The Back callbacks handed to the PAN form (`setStep(1)`) and the business form
      (`setStep(2)`): the record is untouched. */
  function Back(h: Home, target: int): (r: Home)
    ensures r.step == target && r.data == h.data
  {
    h.(step := target)
  }

  /** The forms rendered for `step`: one JSX condition per form. Steps 1, 2 and 3 show the
      GST, PAN and business form respectively, and any other step shows nothing. */
  function Rendered(step: int): (r: set<Screen>)
    ensures GstScreen in r <==> step == 1
    ensures PanScreen in r <==> step == 2
    ensures BusinessScreen in r <==> step == 3
    ensures step in {1, 2, 3} <==> |r| == 1
    ensures step !in {1, 2, 3} ==> r == {}
  {
    (if step == 1 then {GstScreen} else {})
    + (if step == 2 then {PanScreen} else {})
    + (if step == 3 then {BusinessScreen} else {})
  }

  /** The callbacks the page hands to its forms. */
  datatype Event =
    | GstNext(gst: GstForm.GstData)
    | PanNext(pan: PanForm.PanData)
    | PanBack
    | BusinessNext(business: BusinessForm.BusinessData)
    | BusinessBack

  /** The form that can call the callback. */
  function Caller(e: Event): Screen
  {
    match e
    case GstNext(_) => GstScreen
    case PanNext(_) | PanBack => PanScreen
    case BusinessNext(_) | BusinessBack => BusinessScreen
  }

  /** A callback runs only when its form is on screen. So only the GST form at step 1 can
      change `gst`, only the PAN form at step 2 can change `pan`, only the business form at
      step 3 can change `business`, and any change lands on step 1, 2 or 3. A callback of the
      form on screen always runs its handler, whatever its payload. */
  function Apply(h: Home, e: Event): (r: Home)
    ensures Caller(e) !in Rendered(h.step) ==> r == h
    ensures h.step == 1 && e.GstNext? ==>
      r.step == 2 && r.data == h.data.(gst := e.gst)
    ensures h.step == 2 && e.PanNext? ==>
      r.step == 3 && r.data == h.data.(pan := e.pan)
    ensures h.step == 2 && e.PanBack? ==> r.step == 1 && r.data == h.data
    ensures h.step == 3 && e.BusinessNext? ==>
      r.step == 3 && r.data == h.data.(business := e.business)
    ensures h.step == 3 && e.BusinessBack? ==> r.step == 2 && r.data == h.data
    ensures r.data.gst != h.data.gst ==> e.GstNext? && h.step == 1
    ensures r.data.pan != h.data.pan ==> e.PanNext? && h.step == 2
    ensures r.data.business != h.data.business ==> e.BusinessNext? && h.step == 3
    ensures r != h ==> r.step in {1, 2, 3}
  {
    if Caller(e) !in Rendered(h.step) then h
    else
      match e
      case GstNext(d) => GstSubmit(h, d)
      case PanNext(d) => PanSubmit(h, d)
      case PanBack => Back(h, 1)
      case BusinessNext(d) => BusinessSubmit(h, d)
      case BusinessBack => Back(h, 2)
  }

  /** The page after the callbacks `es`, in order. */
  function Run(es: seq<Event>): Home
  {
    if |es| == 0 then Init() else Apply(Run(es[..|es| - 1]), es[|es| - 1])
  }

  /** Back from step 2 shows step 1 and back from step 3 shows step 2, the record unchanged;
      from step 3 no callback leads anywhere but steps 2 and 3. */
  lemma Moves(h: Home)
    ensures h.step == 2 ==> Apply(h, PanBack) == h.(step := 1)
    ensures h.step == 3 ==> Apply(h, BusinessBack) == h.(step := 2)
    ensures h.step == 3 ==> forall e :: Apply(h, e).step in {2, 3}
  {
  }

  /** Every reachable step is 1, 2 or 3, and exactly one form is on screen. */
  lemma {:induction false} OneScreen(es: seq<Event>)
    ensures Run(es).step in {1, 2, 3}
    ensures |Rendered(Run(es).step)| == 1
    decreases |es|
  {
    if |es| > 0 {
      OneScreen(es[..|es| - 1]);
    }
  }

  /** When the PAN callbacks carry what the PAN form forwards (a number of the PAN pattern,
      flag true), the business form is shown only once such a PAN is recorded. */
  lemma {:induction false} BusinessStepHasValidPan(es: seq<Event>)
    requires forall i :: 0 <= i < |es| && es[i].PanNext? ==>
      PanForm.IsValidPan(es[i].pan.panNumber) && es[i].pan.isRegistered
    ensures Run(es).step == 3 ==> PanForm.IsValidPan(Run(es).data.pan.panNumber) && Run(es).data.pan.isRegistered
    decreases |es|
  {
    if |es| > 0 {
      var p := es[..|es| - 1];
      assert forall i :: 0 <= i < |p| ==> p[i] == es[i];
      BusinessStepHasValidPan(p);
    }
  }

  /** An unregistered GST submit shows step 2 with an empty number recorded; Back returns to
      step 1 and keeps it. */
  lemma UnregisteredThenBack()
    ensures var h := Run([GstNext(GstForm.GstData("", false))]);
      h.step == 2 && h.data.gst == GstForm.GstData("", false)
    ensures var h := Run([GstNext(GstForm.GstData("", false)), PanBack]);
      h.step == 1 && h.data.gst == GstForm.GstData("", false)
  {
  }

  /** The business form hands over its record unchecked: submitting it from step 3 stores
      exactly what the form holds, keeps step 3, and the stored country is `"INDIA"`. */
  lemma StoresBusinessForm(h: Home, fes: seq<BusinessForm.Event>)
    requires h.step == 3
    ensures var f := BusinessForm.Run(fes);
      var r := Apply(h, BusinessNext(BusinessForm.Submit(f)));
      r.step == 3 && r.data.business == f.data && r.data.business.address.country == "INDIA"
  {
  }

  /** What the PAN form forwards meets the condition `BusinessStepHasValidPan` puts on PAN
      callbacks: appending it to a trace that meets the condition gives one that still does,
      and from step 2 it shows the business step with that PAN recorded. */
  lemma PanFormFeedsWizard(es: seq<Event>, pes: seq<PanForm.Event>)
    requires forall i :: 0 <= i < |es| && es[i].PanNext? ==>
      PanForm.IsValidPan(es[i].pan.panNumber) && es[i].pan.isRegistered
    requires PanForm.Submit(PanForm.Run(pes)).forwarded.Some?
    ensures var es' := es + [PanNext(PanForm.Submit(PanForm.Run(pes)).forwarded.value)];
      forall i :: 0 <= i < |es'| && es'[i].PanNext? ==>
        PanForm.IsValidPan(es'[i].pan.panNumber) && es'[i].pan.isRegistered
    ensures var d := PanForm.Submit(PanForm.Run(pes)).forwarded.value;
      Run(es).step == 2 ==>
        Run(es + [PanNext(d)]).step == 3 && Run(es + [PanNext(d)]).data.pan == d
  {
    PanForm.ForwardedIsValid(pes);
    var d := PanForm.Submit(PanForm.Run(pes)).forwarded.value;
    assert (es + [PanNext(d)])[..|es|] == es;
  }

  /** What the GST form forwards is stored as it stands: from step 1, the form's payload after
      any user actions shows step 2 with the last text typed and the last radio clicked
      recorded, and nothing else changes. */
  lemma GstFormFeedsWizard(es: seq<Event>, ges: seq<GstForm.Event>)
    requires Run(es).step == 1
    ensures var r := Run(es + [GstNext(GstForm.Submit(GstForm.Run(ges)))]);
      r.step == 2
      && r.data.gst == GstForm.GstData(GstForm.LastTyped(ges), GstForm.LastChoice(ges))
      && r.data.pan == Run(es).data.pan && r.data.business == Run(es).data.business
  {
    GstForm.SubmitForwardsLastInput(ges);
    var d := GstForm.Submit(GstForm.Run(ges));
    assert (es + [GstNext(d)])[..|es|] == es;
  }
}

=== FILE: wrappers.dfy ===
/** Optional values: TypeScript's `T | undefined` and `T | ""` unions. */
module Wrappers {

  /** `None` plays the role of JavaScript's `undefined` (or of an empty selection). */
  datatype Option<+T> = None | Some(value: T)
}
